=== FILE: README.md ===
# War: territory conquest, modelled in Dafny

A model of the game logic of `war.c`, a single-player console version of the
board game War. The map is a fixed-length sequence of territories, each with a
name, the colour of the army that holds it and a troop count. The player
(always the blue army, "Azul") attacks from a territory they hold. Two dice
decide which side loses a troop, and a territory emptied by an attack passes
to the attacker with a single troop. At the start the player draws a secret
mission, and they can ask at any turn whether it is fulfilled.

Modules, one per part of the game:

- `Territories` (`territories.dfy`): the `Territory` record and the map. It
  also holds the counting functions the missions use, and their reference
  definitions over index sets.
- `Dice` (`dice.dfy`): a die face as a value in 1..6, and the mapping
  `rand() % 6 + 1` from a raw random value.
- `Combat` (`combat.dfy`): the resolution of one attack (`simularAtaque`).
- `Command` (`command.dfy`): the validated attack command (`faseDeAtaque`).
- `Missions` (`missions.dfy`): the mission draw (`sortearMissao`) and the
  mission check (`verificarVitoria`). The check is given both as a function
  and as a method whose loops follow the source.
- `Game` (`game.dfy`): one pass through the menu of `main`, a whole game
  played over a supplied sequence of turns, and the loop doubled as `main`
  writes it (see Findings).
- `Scenarios` (`scenarios.dfy`): concrete attacks and mission checks.

Randomness is injected. Dice are parameters of type `Die`, and
`Dice.RollDie` and `Missions.DrawMission` map the value `rand()` would return
to a die face or a mission id. Where the source takes the map length as a
separate argument (`tamanho`), the model uses the length of the sequence. The
game always passes the length of the allocated map.

The definition of `simularAtaque` (war.c:261) and its call (war.c:254) pass
two pointers into the map, and nothing stops them from designating the same
territory. The model follows that definition, naming each pointer by the
index it was taken from, and applies the updates in the source's order. So a territory that attacks
itself loses exactly one troop, whichever die wins, and is never conquered
(`Combat.SelfAttackLosesOneTroop`).

The code does not reject an attack from a territory on itself, nor negative
troop counts entered at setup; the model follows it in both.

The comment after `simularAtaque` (war.c:287) says a conquest moves a troop,
but the code only sets the conquered territory to one troop (war.c:276) and
takes nothing from the origin. The model follows the code: the troop is
created, not moved (`Combat.ResolveTotalTroops`).

## Model

| member | source | states |
|---|---|---|
| `Combat.Resolve` | war.c:261-284 | An origin with fewer than 2 troops refuses the attack and the map is unchanged. Otherwise an attacker die strictly higher than the defender die costs the destination one troop, and a tie or a lower die costs the origin one troop. If the destination is emptied, it gets exactly 1 troop and the origin's colour. Only the losing territory changes, its name never does, and it ends with at least one troop. |
| `Combat.SelfAttackLosesOneTroop` | war.c:272-283 | When origin and destination are the same territory, that territory loses exactly one troop on either branch and is never conquered. |
| `Combat.ResolveTotalTroops` | war.c:272-283 | A fought attack removes exactly one troop from the whole map. The exception is a conquest: it removes the destination's old troops and adds back the one troop of the clamp. A refused attack removes none. |
| `Combat.ResolvePreservesPositiveTroops` | war.c:262-283 | If every territory holds at least one troop before an attack, every territory does afterwards. |
| `Command.AttackCommand` | war.c:244-254 | An index outside [0, size) is reported as invalid. An origin held by another colour is reported as not owned. In both cases the map is unchanged. Otherwise the result is exactly the resolver's battle on the two territories. |
| `Command.AttackCommandKeepsPlayerTerritories` | war.c:249-277 | No attack command takes a territory away from the player. |
| `Command.AttackCommandNoRivalGains` | war.c:249-277 | After an attack command, every territory held by a colour other than the player's was held by that colour before. |
| `Command.AttackCommandKeepsNames` | war.c:244-283 | An attack command keeps the map's length and every territory's name. |
| `Dice.RollDie` | war.c:267-268 | The face drawn from a raw value is the one congruent to the raw value plus one modulo 6. |
| `Dice.RollDieCoversAllFaces` | war.c:267-268 | Six consecutive raw random values give six distinct faces covering 1..6. So `rand() % 6 + 1` always gives a face and favours none within a period. |
| `Missions.DrawMission` | war.c:290-292 | The drawn mission id lies in [0, 3) for every non-negative raw value. |
| `Missions.DrawMissionCoversAll` | war.c:290-292 | Three consecutive raw values draw missions 0, 1 and 2, one each. |
| `Missions.Evaluate` | war.c:296-320 | Mission 0 holds iff two distinct territories have the player's colour. Mission 1 holds iff no territory is "Vermelho". Mission 2 holds iff the player's troops total at least 15. Any other id is never fulfilled. |
| `Missions.CheckVictory` | war.c:296-320 | The source's loops compute exactly the mission check: counting owned territories, leaving early on the first red territory, and summing owned troops left to right. |
| `Missions.HasColorIsExists` | war.c:306-309 | The left-to-right scan for a colour finds it iff some territory has that colour. |
| `Territories.CountColorIsCardinality` | war.c:299-303 | The counting loop's result equals the number of indices holding the colour. |
| `Territories.CountColorAtLeastTwo` | war.c:298-304 | A count of at least two holds iff two distinct indices hold the colour. |
| `Territories.TotalTroopsUpdate` | war.c:273-281 | Changing one territory changes the map's troop total by that territory's change alone. |
| `Territories.SumTroopsOfUpdate` | war.c:311-316 | Changing one territory changes a colour's troop sum by what that territory contributed to it before and after. |
| `Missions.AttackCommandTroopSum` | war.c:244-283 | An attack command changes the player's troop total, which mission 2 measures, as follows. A rejected or refused command changes nothing. A lost attack costs 1. A hit on one of the player's own territories costs 1. A conquest removes the destination's old troops if it was the player's and adds 1. |
| `Missions.TerritoryMissionStaysWon` | war.c:298-304 | Once mission 0 holds, it still holds after any attack command. |
| `Missions.EliminationMissionStaysWon` | war.c:305-310 | Once mission 1 holds, it still holds after any attack command. A red player has no territory to attack from, and no other player can hand a territory to red. |
| `Game.Start` | war.c:83-87 | A new session holds the filled-in map and the blue player. Its mission id is within the catalogue and it starts not won. |
| `Game.Step` | war.c:105-122 | Option 1 runs an attack command, option 2 sets the victory flag to the mission check on the current map, and any other option changes nothing. The player and mission never change. |
| `Game.Play` | war.c:97-124 | One run of the do-while menu loop keeps the map's length, the player and the mission, and with no turns left changes nothing. When it stops is stated by `Game.PlayStopRule`. |
| `Game.PlayStopRule` | war.c:97-124 | The loop reads at least one turn. Every turn read before the last one was not option 0 and left the game not won. If turns are left unread, the last turn read was option 0 or won the game. The unread turns play no part in the result. Together: the loop runs while the option is not 0 and the mission has not been found fulfilled. |
| `Game.PlayWonMeansFulfilled` | war.c:97-124 | A game that ends won in the first loop ends on a map where the drawn mission really is fulfilled. |
| `Game.Rest` | war.c:97-124 | The turns one run of the loop leaves unread are a suffix of its input, strictly shorter whenever a turn was played. Where that suffix starts is stated by `Game.PlayStopRule`. |
| `Game.PlayTwice` | war.c:97-152 | `main` as written runs the loop twice in a row, the second run starting from the first's session; the map length, player and mission are kept. |
| `Game.SecondLoopCanUndoVictory` | war.c:125-152 | With the loop written twice, a game won by checking mission 2 at exactly 15 troops gets one more turn; losing an attack there leaves 14 troops while the game still ends won. |
| `Game.PlayPreservesPositiveTroops` | war.c:97-124 | If every territory starts with at least one troop, none ever drops below one during a game. The map keeps its length. |
| `Scenarios.AttackExamples` | war.c:272-279 | A 3 against a 5 from a territory with 4 troops leaves the origin at 3. A 6 against a 2 on a one-troop territory conquers it and leaves it 1 troop. |
| `Scenarios.MissionExamples` | war.c:296-320 | The player holds two territories with 8 and 7 troops, and a red territory remains. Missions 0 and 2 then hold, mission 1 does not, and id 3 is never fulfilled. |

## Left out

- Console I/O is left out: the menu, map and mission display (`exibirMenuPrincipal`, `exibirMapa`, `exibirMissao`), every `printf`/`scanf`/`fgets`, and `limparBufferEntrada`. The messages the attack prints appear as the `Outcome` and `CommandOutcome` values.
- The reading of territory data in `inicializarTerritorios` is input parsing. The model starts from a given map.
- Fixed 50-byte name buffers, `fgets` truncation and newline trimming are left out. Names and colours are strings, `strcmp(...) == 0` is string equality, and `strcpy` is assignment.
- `alocarMapa`/`liberarMemoria` (`calloc`/`free`) are memory management. The doubled definition of `liberarMemoria` is a compile defect, not behaviour.
- The prototype of `simularAtaque` at war.c:52 (a map and two indices) conflicts with its call at war.c:254 and its definition at war.c:261 (two territory pointers), so the file does not compile as written. The model follows the two-pointer definition.
- `setlocale(LC_ALL, ...)` at war.c:67 is used without including `<locale.h>`, another compile defect. The locale only affects display.
- `srand`, `time` and `setlocale` are left out. `rand()` is replaced by raw-value parameters. The small modulo bias of `rand() % 6` over the full range of `rand()` is not modelled, because `RAND_MAX` is platform-defined.
- Troop counts are unbounded integers rather than 32-bit `int`. This matters only when a player enters an extreme count at setup. Decrementing `INT_MIN` and overflowing mission 2's sum are undefined behaviour in C.
- The code accepts zero or negative troop counts at setup and never checks them. So the positivity of every troop count is proved only for maps that start with every count at least one.

## Findings

| source | as written | input that shows it | evidently intended | confidence | as-written member | corrected member |
|---|---|---|---|---|---|---|
| war.c:97-152 | `main` runs the do-while game loop twice in a row. After a win, one more command runs, and quitting needs option 0 twice. | Map A Azul 8, C Azul 7, D Verde 5 with mission 2. Option 2 sets the victory flag. In the extra turn, an attack 0 on 2 with dice 1 and 1 leaves Azul with 14 troops, and the game still ends won. | One loop: the game ends right after the check that finds the mission fulfilled. | not executed | `Game.SecondLoopCanUndoVictory` | `Game.PlayWonMeansFulfilled` |

=== FILE: combat.dfy ===
/** Resolution of one attack between two territories of the map (the
    source's `simularAtaque`, war.c:261-284).

    The source receives two pointers into the map; here it receives the two
    indices. The pointers may designate the same territory (nothing upstream
    forbids it), so the resolver applies its two updates in the source's
    order, each to the map as the previous one left it: with one territory
    on both sides, it loses one troop whichever die wins. */
module Combat {
  import opened Territories
  import opened Dice

  /** What the resolver reports (the source prints it). */
  datatype Outcome =
    | NotEnoughTroops    // the origin holds fewer than 2 troops; no dice are rolled
    | DefenderLostTroop  // attacker die higher; the destination loses a troop and keeps its army
    | Conquered          // attacker die higher and the destination is emptied: it changes hands
    | AttackerLostTroop  // tie or defender die higher; the origin loses a troop

  datatype Battle = Battle(after: Map, outcome: Outcome)

  /** The least number of troops a territory must hold to attack from it. */
  const MinAttackTroops: int := 2

  /** Resolves an attack from territory `o` on territory `d` with the given
      attacker and defender dice. */
  function Resolve(m: Map, o: nat, d: nat, attack: Die, defense: Die): (b: Battle)
    requires o < |m| && d < |m|
    ensures |b.after| == |m|
    // refusal: too few troops, nothing changes
    ensures b.outcome == NotEnoughTroops <==> m[o].troops < MinAttackTroops
    ensures b.outcome == NotEnoughTroops ==> b.after == m
    // which side loses is decided by the dice alone, ties going to the defender
    ensures m[o].troops >= MinAttackTroops ==>
              (b.outcome == AttackerLostTroop <==> attack <= defense)
    // the defender loses one troop and keeps its army
    ensures b.outcome == DefenderLostTroop ==>
              && OnlyChanged(m, b.after, d)
              && b.after[d].troops == m[d].troops - 1 >= 1
              && b.after[d].color == m[d].color
    // conquest: the destination was left with no troops; it gets exactly one
    // and the origin's army colour, and the origin is untouched
    ensures b.outcome == Conquered ==>
              && o != d
              && m[d].troops <= 1
              && OnlyChanged(m, b.after, d)
              && b.after[d].troops == 1
              && b.after[d].color == m[o].color
    // the attacker loses one troop and keeps at least one
    ensures b.outcome == AttackerLostTroop ==>
              && OnlyChanged(m, b.after, o)
              && b.after[o].troops == m[o].troops - 1 >= 1
              && b.after[o].color == m[o].color
    // every territory the attack touches ends with at least one troop
    ensures forall i :: 0 <= i < |m| && b.after[i] != m[i] ==> b.after[i].troops >= 1
  {
    if m[o].troops < MinAttackTroops then
      Battle(m, NotEnoughTroops)
    else if attack > defense then
      var hit := m[d := m[d].(troops := m[d].troops - 1)];
      if hit[d].troops <= 0 then
        Battle(hit[d := hit[d].(troops := 1, color := hit[o].color)], Conquered)
      else
        Battle(hit, DefenderLostTroop)
    else
      Battle(m[o := m[o].(troops := m[o].troops - 1)], AttackerLostTroop)
  }

  /** An attack a territory launches on itself never conquers it: the lone
      territory loses exactly one troop, whichever die wins. */
  lemma SelfAttackLosesOneTroop(m: Map, k: nat, attack: Die, defense: Die)
    requires k < |m| && m[k].troops >= MinAttackTroops
    ensures var b := Resolve(m, k, k, attack, defense);
            && b.outcome != Conquered
            && b.after == m[k := m[k].(troops := m[k].troops - 1)]
  {
  }

  /** Troop bookkeeping: every fought attack removes exactly one troop from
      the map, except a conquest, which refills the emptied destination to
      one troop. */
  lemma ResolveTotalTroops(m: Map, o: nat, d: nat, attack: Die, defense: Die)
    requires o < |m| && d < |m|
    ensures Resolve(m, o, d, attack, defense).outcome == NotEnoughTroops ==>
              TotalTroops(Resolve(m, o, d, attack, defense).after) == TotalTroops(m)
    ensures Resolve(m, o, d, attack, defense).outcome in {DefenderLostTroop, AttackerLostTroop} ==>
              TotalTroops(Resolve(m, o, d, attack, defense).after) == TotalTroops(m) - 1
    ensures Resolve(m, o, d, attack, defense).outcome == Conquered ==>
              TotalTroops(Resolve(m, o, d, attack, defense).after) == TotalTroops(m) - m[d].troops + 1
  {
    var b := Resolve(m, o, d, attack, defense);
    match b.outcome
    case NotEnoughTroops =>
    case DefenderLostTroop =>
      TotalTroopsUpdate(m, d, b.after[d]);
      assert b.after == m[d := b.after[d]];
    case AttackerLostTroop =>
      TotalTroopsUpdate(m, o, b.after[o]);
      assert b.after == m[o := b.after[o]];
    case Conquered =>
      TotalTroopsUpdate(m, d, b.after[d]);
      assert b.after == m[d := b.after[d]];
  }

  /** An attack keeps every territory's troop count positive if it was
      positive before. */
  lemma ResolvePreservesPositiveTroops(m: Map, o: nat, d: nat, attack: Die, defense: Die)
    requires o < |m| && d < |m|
    requires AllTroopsPositive(m)
    ensures AllTroopsPositive(Resolve(m, o, d, attack, defense).after)
  {
  }
}

=== FILE: command.dfy ===
/** The attack command (the source's `faseDeAtaque`, war.c:235-255): the
    player names an origin and a destination index; the command checks both
    indices against the map and the player's ownership of the origin before
    handing the attack to the resolver. The indices are whatever integers
    the player typed, so they may be negative. */
module Command {
  import opened Territories
  import opened Dice
  import opened Combat

  datatype CommandOutcome =
    | InvalidIndices   // an index lies outside [0, |m|)
    | NotOwner         // the origin is held by another army
    | Fought(battle: Outcome)

  datatype CommandResult = CommandResult(after: Map, outcome: CommandOutcome)

  /** Both indices designate territories of the map. */
  predicate ValidIndices(m: Map, o: int, d: int)
  {
    0 <= o < |m| && 0 <= d < |m|
  }

  /** Runs one attack command of the player whose army colour is `player`. */
  function AttackCommand(m: Map, o: int, d: int, player: string, attack: Die, defense: Die): (r: CommandResult)
    ensures r.outcome == InvalidIndices <==> !ValidIndices(m, o, d)
    ensures r.outcome == NotOwner <==> ValidIndices(m, o, d) && m[o].color != player
    ensures !r.outcome.Fought? ==> r.after == m
    ensures r.outcome.Fought? ==>
              && ValidIndices(m, o, d)
              && m[o].color == player
              && Battle(r.after, r.outcome.battle) == Resolve(m, o, d, attack, defense)
  {
    if !ValidIndices(m, o, d) then
      CommandResult(m, InvalidIndices)
    else if m[o].color != player then
      CommandResult(m, NotOwner)
    else
      var b := Resolve(m, o, d, attack, defense);
      CommandResult(b.after, Fought(b.outcome))
  }

  /** A command never takes a territory away from the player: attacks start
      from the player's own territory, and a conquest hands the destination
      to the origin's army. */
  lemma AttackCommandKeepsPlayerTerritories(m: Map, o: int, d: int, player: string, attack: Die, defense: Die)
    ensures var m' := AttackCommand(m, o, d, player, attack, defense).after;
            && |m'| == |m|
            && forall i :: 0 <= i < |m| && m[i].color == player ==> m'[i].color == player
  {
  }

  /** A command never lets a colour other than the player's gain a
      territory: every territory held by another colour after the command
      was held by that same colour before. */
  lemma AttackCommandNoRivalGains(m: Map, o: int, d: int, player: string, attack: Die, defense: Die, c: string)
    requires c != player
    ensures var m' := AttackCommand(m, o, d, player, attack, defense).after;
            forall i :: 0 <= i < |m'| && m'[i].color == c ==> i < |m| && m[i].color == c
  {
  }

  /** Names never change, and the map keeps its length. */
  lemma AttackCommandKeepsNames(m: Map, o: int, d: int, player: string, attack: Die, defense: Die)
    ensures var m' := AttackCommand(m, o, d, player, attack, defense).after;
            && |m'| == |m|
            && forall i :: 0 <= i < |m| ==> m'[i].name == m[i].name
  {
  }
}

=== FILE: dice.dfy ===
/** Randomness of the game, injected. The source draws a die as
    `rand() % 6 + 1` and a mission as `rand() % QTD_MISSOES`; here the raw
    value `rand()` would return is a parameter. `rand()` never returns a
    negative value, so C's truncating `%` and Dafny's `%` agree on it. */
module Dice {

  const Faces: int := 6

  /** One face of a six-sided die. */
  type Die = x: int | 1 <= x <= Faces witness 1

  /** The die face obtained from a raw random value. */
  function RollDie(raw: nat): (d: Die)
    ensures (raw - (d - 1)) % Faces == 0
  {
    raw % Faces + 1
  }

  /** The faces of six consecutive raw values, in order. */
  function SixRolls(raw: nat): seq<Die>
  {
    [RollDie(raw), RollDie(raw + 1), RollDie(raw + 2),
     RollDie(raw + 3), RollDie(raw + 4), RollDie(raw + 5)]
  }

  /** The next raw value turns the die to the next face, wrapping from six
      back to one. */
  lemma RollDieNext(raw: nat)
    ensures RollDie(raw + 1) == if RollDie(raw) == Faces then 1 else RollDie(raw) + 1
  {
  }

  /** Six consecutive raw values give each face exactly once, so the mapping
      itself favours no face. */
  lemma {:induction false} RollDieCoversAllFaces(raw: nat)
    ensures forall f: int :: 1 <= f <= Faces ==> f in SixRolls(raw)
    ensures forall k, l :: 0 <= k < l < |SixRolls(raw)| ==> SixRolls(raw)[k] != SixRolls(raw)[l]
  {
    RollDieNext(raw);
    RollDieNext(raw + 1);
    RollDieNext(raw + 2);
    RollDieNext(raw + 3);
    RollDieNext(raw + 4);
    var r := SixRolls(raw);
    match RollDie(raw)
    case 1 => assert r == [1, 2, 3, 4, 5, 6];
    case 2 => assert r == [2, 3, 4, 5, 6, 1];
    case 3 => assert r == [3, 4, 5, 6, 1, 2];
    case 4 => assert r == [4, 5, 6, 1, 2, 3];
    case 5 => assert r == [5, 6, 1, 2, 3, 4];
    case 6 => assert r == [6, 1, 2, 3, 4, 5];
  }
}

=== FILE: game.dfy ===
/** The game loop of `main` (war.c:83-124), reduced to its logic: a session
    holds the map, the player's colour, the drawn mission and the victory
    flag; each turn the player picks a menu option (1 attack, 2 check the
    mission, 0 quit, anything else is rejected) and the loop goes on while
    the option is not 0 and the mission has not been found fulfilled.
    Reading the options, indices and territory data is left to the caller,
    who supplies them together with the raw random values. `main` writes
    the loop out twice (war.c:97-152); `PlayTwice` models that, `Play` the
    single loop the game evidently intends. */
module Game {
  import opened Territories
  import opened Dice
  import opened Combat
  import opened Command
  import opened Missions

  /** The colour the player always plays. */
  const PlayerColor: string := "Azul"

  const OptionQuit: int := 0
  const OptionAttack: int := 1
  const OptionCheck: int := 2

  datatype Session = Session(board: Map, player: string, mission: int, won: bool)

  /** One turn's input: the menu option and, for an attack, the two indices
      and the two dice. */
  datatype Turn = Turn(option: int, origin: int, destination: int, attack: Die, defense: Die)

  /** The session as the game starts it once the map is filled in. */
  function Start(m: Map, raw: nat): (s: Session)
    ensures s.board == m && s.player == PlayerColor && !s.won
    ensures 0 <= s.mission < MissionCount
  {
    Session(m, PlayerColor, DrawMission(raw), false)
  }

  /** One pass through the menu. */
  function Step(s: Session, t: Turn): (s': Session)
    ensures s'.player == s.player && s'.mission == s.mission
    ensures t.option == OptionAttack ==>
              && s'.board == AttackCommand(s.board, t.origin, t.destination, s.player, t.attack, t.defense).after
              && s'.won == s.won
    ensures t.option == OptionCheck ==>
              s'.board == s.board && s'.won == Evaluate(s.board, s.mission, s.player)
    ensures t.option != OptionAttack && t.option != OptionCheck ==> s' == s
  {
    if t.option == OptionAttack then
      s.(board := AttackCommand(s.board, t.origin, t.destination, s.player, t.attack, t.defense).after)
    else if t.option == OptionCheck then
      s.(won := Evaluate(s.board, s.mission, s.player))
    else
      s
  }

  /** The loop condition, checked after each turn. */
  predicate Continues(s: Session, t: Turn)
  {
    t.option != OptionQuit && !s.won
  }

  /** One run of the menu loop (a do-while: a turn is played before the
      condition is checked). Plays turns until the player quits, the mission
      is found fulfilled, or the supplied turns run out. */
  function Play(s: Session, turns: seq<Turn>): (f: Session)
    ensures |f.board| == |s.board| && f.player == s.player && f.mission == s.mission
    ensures |turns| == 0 ==> f == s
    decreases |turns|
  {
    if |turns| == 0 then s
    else
      var s' := Step(s, turns[0]);
      if Continues(s', turns[0]) then Play(s', turns[1..]) else s'
  }

  /** The turns one run of the loop leaves unread: a suffix of the input,
      strictly shorter whenever there was a turn to play. */
  function Rest(s: Session, turns: seq<Turn>): (rest: seq<Turn>)
    ensures |rest| <= |turns| && rest == turns[|turns| - |rest|..]
    ensures |turns| > 0 ==> |rest| < |turns|
    decreases |turns|
  {
    if |turns| == 0 then []
    else
      var s' := Step(s, turns[0]);
      if Continues(s', turns[0]) then Rest(s', turns[1..]) else turns[1..]
  }

  /** The loop's stop rule: it reads turns one at a time, at least one, and
      goes on while the option is not a quit and the mission has not been
      found fulfilled. Every turn read before the last one was not a quit
      and left the game not won; if turns are left unread, the last turn
      read was a quit or won the game; and the turns left unread play no
      part in the result. */
  lemma {:induction false} PlayStopRule(s: Session, turns: seq<Turn>)
    requires |turns| > 0
    ensures var k := |turns| - |Rest(s, turns)|;
            && 1 <= k <= |turns|
            && (forall j :: 0 <= j < k - 1 ==>
                  turns[j].option != OptionQuit && !Play(s, turns[..j + 1]).won)
            && (k < |turns| ==> turns[k - 1].option == OptionQuit || Play(s, turns).won)
            && Play(s, turns) == Play(s, turns[..k])
    decreases |turns|
  {
    var s' := Step(s, turns[0]);
    var k := |turns| - |Rest(s, turns)|;
    assert turns[..1][0] == turns[0] && turns[..1][1..] == [];
    if Continues(s', turns[0]) && |turns| > 1 {
      var tail := turns[1..];
      PlayStopRule(s', tail);
      var k' := |tail| - |Rest(s', tail)|;
      assert k == 1 + k';
      forall j | 0 <= j < k - 1
        ensures turns[j].option != OptionQuit && !Play(s, turns[..j + 1]).won
      {
        if j > 0 {
          assert turns[j] == tail[j - 1];
          assert turns[..j + 1][0] == turns[0];
          assert turns[..j + 1][1..] == tail[..j];
        }
      }
      assert turns[..k][0] == turns[0];
      assert turns[..k][1..] == tail[..k'];
    } else if Continues(s', turns[0]) {
      assert turns[..k] == turns;
    }
  }

  /** The game loop as `main` is written: the same do-while loop twice in a
      row, the second starting from where the first stopped, with the
      victory flag kept. */
  function PlayTwice(s: Session, turns: seq<Turn>): (f: Session)
    ensures |f.board| == |s.board| && f.player == s.player && f.mission == s.mission
  {
    Play(Play(s, turns), Rest(s, turns))
  }

  /** With the loop written twice, a won game gets one more turn, and an
      attack in it can undo mission 2: the player checks the mission with
      exactly 15 troops, wins, then loses a troop in the extra turn and the
      game still ends won. */
  lemma SecondLoopCanUndoVictory()
    ensures var s := Session([Territory("A", "Azul", 8), Territory("C", "Azul", 7), Territory("D", "Verde", 5)],
                             PlayerColor, 2, false);
            var turns := [Turn(OptionCheck, 0, 0, 1, 1), Turn(OptionAttack, 0, 2, 1, 1)];
            && Play(s, turns).won
            && Evaluate(Play(s, turns).board, 2, PlayerColor)
            && PlayTwice(s, turns).won
            && !Evaluate(PlayTwice(s, turns).board, 2, PlayerColor)
  {
    var m := [Territory("A", "Azul", 8), Territory("C", "Azul", 7), Territory("D", "Verde", 5)];
    var s := Session(m, PlayerColor, 2, false);
    var turns := [Turn(OptionCheck, 0, 0, 1, 1), Turn(OptionAttack, 0, 2, 1, 1)];
    assert m[..1][..0] == [] && m[..2][..1] == m[..1] && m[..2] == m[..|m| - 1];
    assert SumTroopsOf(m[..1], PlayerColor) == 8;
    assert SumTroopsOf(m[..2], PlayerColor) == 15;
    assert SumTroopsOf(m, PlayerColor) == 15;
    var s1 := Step(s, turns[0]);
    assert s1.won && !Continues(s1, turns[0]);
    assert Play(s, turns) == s1;
    assert Rest(s, turns) == turns[1..];
    var m2 := [Territory("A", "Azul", 7), Territory("C", "Azul", 7), Territory("D", "Verde", 5)];
    assert AttackCommand(m, 0, 2, PlayerColor, 1, 1).after == m2;
    assert turns[1..][1..] == [];
    assert PlayTwice(s, turns) == s1.(board := m2);
    assert m2[..1][..0] == [] && m2[..2][..1] == m2[..1] && m2[..2] == m2[..|m2| - 1];
    assert SumTroopsOf(m2[..1], PlayerColor) == 7;
    assert SumTroopsOf(m2[..2], PlayerColor) == 14;
    assert SumTroopsOf(m2, PlayerColor) == 14;
  }

  /** A game that ends in victory ends on a map where the mission really is
      fulfilled: the loop stops as soon as a check succeeds, before any
      further attack. */
  lemma {:induction false} PlayWonMeansFulfilled(s: Session, turns: seq<Turn>)
    requires !s.won
    ensures var f := Play(s, turns);
            f.won ==> Evaluate(f.board, f.mission, f.player)
    ensures Play(s, turns).player == s.player && Play(s, turns).mission == s.mission
    decreases |turns|
  {
    if |turns| > 0 {
      var s' := Step(s, turns[0]);
      if Continues(s', turns[0]) {
        PlayWonMeansFulfilled(s', turns[1..]);
      }
    }
  }

  /** If every territory starts with at least one troop, none ever drops to
      zero in the course of a game. */
  lemma {:induction false} PlayPreservesPositiveTroops(s: Session, turns: seq<Turn>)
    requires AllTroopsPositive(s.board)
    ensures AllTroopsPositive(Play(s, turns).board)
    ensures |Play(s, turns).board| == |s.board|
    decreases |turns|
  {
    if |turns| > 0 {
      var t := turns[0];
      var s' := Step(s, t);
      if t.option == OptionAttack && ValidIndices(s.board, t.origin, t.destination) {
        ResolvePreservesPositiveTroops(s.board, t.origin, t.destination, t.attack, t.defense);
      }
      if Continues(s', t) {
        PlayPreservesPositiveTroops(s', turns[1..]);
      }
    }
  }
}

=== FILE: missions.dfy ===
/** The secret missions (the source's `sortearMissao`, war.c:290-292, and
    `verificarVitoria`, war.c:296-320). A mission is an integer id; three
    ids are known, any other id is never fulfilled:
      0  hold at least 2 territories,
      1  no territory is held by the red army ("Vermelho"),
      2  hold at least 15 troops in total. */
module Missions {
  import opened Territories
  import opened Dice
  import opened Combat
  import opened Command

  /** Number of missions in the catalogue (QTD_MISSOES). */
  const MissionCount: int := 3

  const TerritoryGoal: int := 2
  const EliminatedColor: string := "Vermelho"
  const TroopGoal: int := 15

  /** The mission drawn from a raw random value. */
  function DrawMission(raw: nat): (id: int)
    ensures 0 <= id < MissionCount
  {
    raw % MissionCount
  }

  /** The next raw value draws the next mission id, wrapping to 0. */
  lemma DrawMissionNext(raw: nat)
    ensures DrawMission(raw + 1) == if DrawMission(raw) == MissionCount - 1 then 0 else DrawMission(raw) + 1
  {
  }

  /** Any three consecutive raw values draw the three missions, one each. */
  lemma {:induction false} DrawMissionCoversAll(raw: nat)
    ensures {DrawMission(raw), DrawMission(raw + 1), DrawMission(raw + 2)} == {0, 1, 2}
  {
    DrawMissionNext(raw);
    DrawMissionNext(raw + 1);
  }

  /** Whether some territory is held by colour `c`, scanning left to right. */
  function HasColor(m: Map, c: string): bool
  {
    |m| > 0 && (HasColor(m[..|m| - 1], c) || m[|m| - 1].color == c)
  }

  lemma {:induction false} HasColorIsExists(m: Map, c: string)
    ensures HasColor(m, c) <==> exists i :: 0 <= i < |m| && m[i].color == c
    decreases |m|
  {
    if |m| > 0 {
      var p := m[..|m| - 1];
      HasColorIsExists(p, c);
      assert forall i :: 0 <= i < |p| ==> p[i] == m[i];
      if exists i :: 0 <= i < |m| && m[i].color == c {
        var i :| 0 <= i < |m| && m[i].color == c;
        if i < |p| {
          assert p[i].color == c;
        }
      }
    }
  }

  /** Whether mission `mission` is fulfilled by player `player` on map `m`. */
  function Evaluate(m: Map, mission: int, player: string): (won: bool)
    ensures mission == 0 ==>
              (won <==> exists i, j :: 0 <= i < j < |m| && m[i].color == player && m[j].color == player)
    ensures mission == 1 ==>
              (won <==> forall i :: 0 <= i < |m| ==> m[i].color != EliminatedColor)
    ensures mission == 2 ==> (won <==> SumTroopsOf(m, player) >= TroopGoal)
    ensures !(0 <= mission < MissionCount) ==> !won
  {
    CountColorAtLeastTwo(m, player);
    HasColorIsExists(m, EliminatedColor);
    match mission
    case 0 => CountColor(m, player) >= TerritoryGoal
    case 1 => !HasColor(m, EliminatedColor)
    case 2 => SumTroopsOf(m, player) >= TroopGoal
    case _ => false
  }

  /** The evaluation as the source runs it: one pass over the map per
      mission, leaving early when a red territory is found. */
  method CheckVictory(m: Map, mission: int, player: string) returns (won: bool)
    ensures won == Evaluate(m, mission, player)
  {
    if mission == 0 {
      var count := 0;
      for i := 0 to |m|
        invariant count == CountColor(m[..i], player)
      {
        assert m[..i + 1][..i] == m[..i];
        if m[i].color == player {
          count := count + 1;
        }
      }
      assert m[..|m|] == m;
      return count >= TerritoryGoal;
    } else if mission == 1 {
      for i := 0 to |m|
        invariant !HasColor(m[..i], EliminatedColor)
      {
        assert m[..i + 1][..i] == m[..i];
        if m[i].color == EliminatedColor {
          assert HasColor(m[..i + 1], EliminatedColor);
          HasColorIsExists(m[..i + 1], EliminatedColor);
          HasColorIsExists(m, EliminatedColor);
          assert m[..i + 1][i] == m[i];
          return false;
        }
      }
      assert m[..|m|] == m;
      return true;
    } else if mission == 2 {
      var total := 0;
      for i := 0 to |m|
        invariant total == SumTroopsOf(m[..i], player)
      {
        assert m[..i + 1][..i] == m[..i];
        if m[i].color == player {
          total := total + m[i].troops;
        }
      }
      assert m[..|m|] == m;
      return total >= TroopGoal;
    }
    return false;
  }

  /** Once the player holds two territories, no attack command can undo it:
      mission 0, once fulfilled, stays fulfilled. */
  lemma {:induction false} TerritoryMissionStaysWon(m: Map, o: int, d: int, player: string, attack: Die, defense: Die)
    requires Evaluate(m, 0, player)
    ensures Evaluate(AttackCommand(m, o, d, player, attack, defense).after, 0, player)
  {
    var m' := AttackCommand(m, o, d, player, attack, defense).after;
    AttackCommandKeepsPlayerTerritories(m, o, d, player, attack, defense);
    assert Owned(m, player) <= Owned(m', player);
    CountColorIsCardinality(m, player);
    CountColorIsCardinality(m', player);
    SubsetCardinality(Owned(m, player), Owned(m', player));
    CountColorAtLeastTwo(m, player);
    CountColorAtLeastTwo(m', player);
  }

  /** Attack commands never bring the red army back: mission 1, once
      fulfilled, stays fulfilled. A player of another colour cannot hand a
      territory to red, and a red player holds no territory to attack from. */
  lemma {:induction false} EliminationMissionStaysWon(m: Map, o: int, d: int, player: string, attack: Die, defense: Die)
    requires Evaluate(m, 1, player)
    ensures Evaluate(AttackCommand(m, o, d, player, attack, defense).after, 1, player)
  {
    if player == EliminatedColor {
      assert AttackCommand(m, o, d, player, attack, defense).after == m;
    } else {
      AttackCommandNoRivalGains(m, o, d, player, attack, defense, EliminatedColor);
    }
  }

  /** How an attack command moves the player's troop total, the quantity
      mission 2 measures: a lost attack costs one troop, a hit on one of the
      player's own territories costs one, and a conquest leaves the player
      exactly one troop on the taken territory. So mission 2, unlike 0 and
      1, can be lost again. */
  lemma {:induction false} AttackCommandTroopSum(m: Map, o: int, d: int, player: string, attack: Die, defense: Die)
    ensures var r := AttackCommand(m, o, d, player, attack, defense);
            var sum := SumTroopsOf(m, player);
            var sum' := SumTroopsOf(r.after, player);
            && (!r.outcome.Fought? || r.outcome.battle == NotEnoughTroops ==> sum' == sum)
            && (r.outcome == Fought(AttackerLostTroop) ==> sum' == sum - 1)
            && (r.outcome == Fought(DefenderLostTroop) ==>
                  sum' == sum - (if m[d].color == player then 1 else 0))
            && (r.outcome == Fought(Conquered) ==>
                  sum' == sum - (if m[d].color == player then m[d].troops else 0) + 1)
  {
    var r := AttackCommand(m, o, d, player, attack, defense);
    if r.outcome.Fought? {
      match r.outcome.battle
      case NotEnoughTroops =>
      case AttackerLostTroop =>
        SumTroopsOfUpdate(m, o, r.after[o], player);
        assert r.after == m[o := r.after[o]];
      case DefenderLostTroop =>
        SumTroopsOfUpdate(m, d, r.after[d], player);
        assert r.after == m[d := r.after[d]];
      case Conquered =>
        SumTroopsOfUpdate(m, d, r.after[d], player);
        assert r.after == m[d := r.after[d]];
    }
  }
}

=== FILE: scenarios.dfy ===
/** Concrete games worked through the model. */
module Scenarios {
  import opened Territories
  import opened Combat
  import opened Missions

  /** A 3 against a 5 from a territory with 4 troops: the attacker loses a
      troop and the defender is untouched. A 6 against a 2 on a territory
      with a single troop: it is conquered and keeps exactly one troop. */
  lemma AttackExamples()
    ensures var m := [Territory("Brasil", "Azul", 4), Territory("Chile", "Verde", 1)];
            && Resolve(m, 0, 1, 3, 5) ==
               Battle([Territory("Brasil", "Azul", 3), Territory("Chile", "Verde", 1)], AttackerLostTroop)
            && Resolve(m, 0, 1, 6, 2) ==
               Battle([Territory("Brasil", "Azul", 4), Territory("Chile", "Azul", 1)], Conquered)
  {
  }

  /** Five territories, two of them the player's with 8 and 7 troops: the
      player holds two territories and exactly 15 troops, so missions 0 and
      2 are fulfilled; red still holds one, so mission 1 is not. */
  lemma {:induction false} MissionExamples()
    ensures var m := [Territory("A", "Azul", 8), Territory("B", "Verde", 3), Territory("C", "Azul", 7),
                      Territory("D", "Vermelho", 2), Territory("E", "Amarelo", 5)];
            && Evaluate(m, 0, "Azul")
            && !Evaluate(m, 1, "Azul")
            && Evaluate(m, 2, "Azul")
            && !Evaluate(m, 3, "Azul")
  {
    var m := [Territory("A", "Azul", 8), Territory("B", "Verde", 3), Territory("C", "Azul", 7),
              Territory("D", "Vermelho", 2), Territory("E", "Amarelo", 5)];
    assert m[..1][..0] == [];
    assert SumTroopsOf(m[..1], "Azul") == 8;
    assert m[..2][..1] == m[..1];
    assert SumTroopsOf(m[..2], "Azul") == 8;
    assert m[..3][..2] == m[..2];
    assert SumTroopsOf(m[..3], "Azul") == 15;
    assert m[..4][..3] == m[..3];
    assert SumTroopsOf(m[..4], "Azul") == 15;
    assert m[..4] == m[..|m| - 1];
    assert m[0].color == "Azul" && m[2].color == "Azul";
    assert m[3].color == EliminatedColor;
  }
}

=== FILE: territories.dfy ===
/** The territory store of the game: a fixed-length map of territories, each
    with a name, the colour of the army that holds it and a troop count.

    Names and colours are plain strings (the source keeps them in bounded
    character buffers and compares them with `strcmp`, which here becomes
    string equality). Troop counts are unbounded integers: the source reads
    them from the player and never checks their sign. */
module Territories {

  datatype Territory = Territory(name: string, color: string, troops: int)

  /** The map, indexed 0..|m|-1; its length never changes during a game. */
  type Map = seq<Territory>

  /** Indices of the territories held by army colour `c`. */
  ghost function Owned(m: Map, c: string): set<nat>
  {
    set i: nat | i < |m| && m[i].color == c
  }

  /** `m'` differs from `m` at most at index `k`, and territory `k` keeps
      its name: what a single troop or ownership update may change. */
  ghost predicate OnlyChanged(m: Map, m': Map, k: nat)
  {
    && |m'| == |m|
    && k < |m|
    && m'[k].name == m[k].name
    && forall i :: 0 <= i < |m| && i != k ==> m'[i] == m[i]
  }

  /** Every territory holds at least one troop. */
  ghost predicate AllTroopsPositive(m: Map)
  {
    forall i :: 0 <= i < |m| ==> m[i].troops >= 1
  }

  /** Number of territories held by colour `c`, counted left to right. */
  function CountColor(m: Map, c: string): nat
  {
    if |m| == 0 then 0
    else CountColor(m[..|m| - 1], c) + (if m[|m| - 1].color == c then 1 else 0)
  }

  /** Sum of the troops on the territories held by colour `c`, accumulated
      left to right. */
  function SumTroopsOf(m: Map, c: string): int
  {
    if |m| == 0 then 0
    else SumTroopsOf(m[..|m| - 1], c) + (if m[|m| - 1].color == c then m[|m| - 1].troops else 0)
  }

  /** Sum of the troops on all territories. */
  function TotalTroops(m: Map): int
  {
    if |m| == 0 then 0 else TotalTroops(m[..|m| - 1]) + m[|m| - 1].troops
  }

  /** The counted number of territories of colour `c` is the size of the set
      of indices holding that colour. */
  lemma {:induction false} CountColorIsCardinality(m: Map, c: string)
    ensures CountColor(m, c) == |Owned(m, c)|
    decreases |m|
  {
    if |m| == 0 {
      assert Owned(m, c) == {};
    } else {
      var p := m[..|m| - 1];
      var last: nat := |m| - 1;
      CountColorIsCardinality(p, c);
      assert forall i :: 0 <= i < |p| ==> p[i] == m[i];
      if m[last].color == c {
        assert Owned(m, c) == Owned(p, c) + {last};
        assert last !in Owned(p, c);
      } else {
        assert Owned(m, c) == Owned(p, c);
      }
    }
  }

  /** At least two territories have colour `c` exactly when two distinct
      indices hold that colour. */
  lemma {:induction false} CountColorAtLeastTwo(m: Map, c: string)
    ensures CountColor(m, c) >= 2 <==>
            exists i, j :: 0 <= i < j < |m| && m[i].color == c && m[j].color == c
  {
    CountColorIsCardinality(m, c);
    var s := Owned(m, c);
    if |s| >= 2 {
      var i :| i in s;
      assert |s - {i}| == |s| - 1;
      var j :| j in s - {i};
      if i < j {
        assert m[i].color == c && m[j].color == c;
      } else {
        assert m[j].color == c && m[i].color == c;
      }
    }
    if exists i, j :: 0 <= i < j < |m| && m[i].color == c && m[j].color == c {
      var i, j :| 0 <= i < j < |m| && m[i].color == c && m[j].color == c;
      assert {i as nat, j as nat} <= s;
      assert |{i as nat, j as nat}| == 2;
      SubsetCardinality({i as nat, j as nat}, s);
    }
  }

  lemma SubsetCardinality(a: set<nat>, b: set<nat>)
    requires a <= b
    ensures |a| <= |b|
  {
    assert b == a + (b - a);
  }

  /** Replacing one territory changes the total troop count by exactly the
      difference between the new and the old troop counts. */
  lemma {:induction false} TotalTroopsUpdate(m: Map, k: nat, t: Territory)
    requires k < |m|
    ensures TotalTroops(m[k := t]) == TotalTroops(m) - m[k].troops + t.troops
    decreases |m|
  {
    var m' := m[k := t];
    var last := |m| - 1;
    assert m'[..last] == if k == last then m[..last] else m[..last][k := t];
    if k < last {
      TotalTroopsUpdate(m[..last], k, t);
    }
  }

  /** Replacing one territory changes the troop sum of colour `c` by what
      that territory contributed before and after. */
  lemma {:induction false} SumTroopsOfUpdate(m: Map, k: nat, t: Territory, c: string)
    requires k < |m|
    ensures SumTroopsOf(m[k := t], c) ==
            SumTroopsOf(m, c) - (if m[k].color == c then m[k].troops else 0)
                              + (if t.color == c then t.troops else 0)
    decreases |m|
  {
    var m' := m[k := t];
    var last := |m| - 1;
    assert m'[..last] == if k == last then m[..last] else m[..last][k := t];
    if k < last {
      SumTroopsOfUpdate(m[..last], k, t, c);
    }
  }
}
